=== FILE: README.md ===
# SPI serial-flash boot driver — Dafny model

This project models the identification, addressing and recovery-erase logic of
at91bootstrap's SPI serial-flash driver (`driver/dataflash.c`). It also models
the return-code flow of `load_dataflash`. Every part is a pure function or a
method over immutable data, with contracts proved by Dafny.

The driver works like this:

- Every flash command goes through `df_send_command`. It selects the chip,
  clears the controller status, shifts the command bytes out, and clocks the
  data bytes in against zeros.
- `dataflash_probe_atmel` reads the five JEDEC ID bytes and turns the
  manufacturer and device bytes into a family code.
- `df_desc_init` turns the family code into a descriptor: page count, page
  size, page-offset shift and power-of-two flag. For AT45 parts it uses the
  density bits of a status read.
- `dataflash_read_array` translates a byte offset into the flash's address. It
  encodes the 5-byte fast-read frame and reads the data in one transfer.
- With `CONFIG_DATAFLASH_RECOVERY`, a held recovery button erases page or
  sector 0. The erase routine depends on the family: the AT25 unprotect
  sequence, a write enable, the erase command, and a bounded status poll.

## Layout

| file | module | contents |
|---|---|---|
| `types.dfy` | `Types` | `Byte` and `U32`, the bit-field helpers written as arithmetic, `Option`/`Result` |
| `spi.dfy` | `Spi` | the bus as an event trace, `df_send_command`, the status readers |
| `probe.dfy` | `Probe` | descriptors, the AT45 density table, family dispatch, the ID probe |
| `read_array.dfy` | `ArrayRead` | address translation, frame encoding and decoding, the array read |
| `recovery.dfy` | `Recovery` | unprotect, erase commands, the poll loops, `dataflash_recovery` |
| `load.dfy` | `Load` | the control flow of `load_dataflash` over the steps' results |

### The bus

The flash is an oracle `Miso = nat -> Byte`. `dev(k)` is the byte the flash
drives during the k-th full-duplex exchange since power-up. The bus state
`Bus(cursor, trace)` counts exchanges and records events:

- `CsActivate` and `CsDeactivate` for the chip select;
- `ClearStatus` for the `at91_spi_read_sr` call that clears pending events;
- `Transfer(mosi, miso)` for one byte exchange.

A frame is therefore the event sequence of one `df_send_command` call. Because
the flash's replies are a parameter, every statement about received data
holds for all flash behaviours.

### Bit fields

C masks on status and ID bytes are written as arithmetic in `Types`. Each is
named after the bits it keeps:

| helper | C mask | arithmetic |
|---|---|---|
| `Bit0` | `& 0x01` | `b % 2 == 1` |
| `Bit7` | `& 0x80` | `b >= 0x80` |
| `Bits3To2` | `& 0x0C` | `b % 0x10 - b % 0x4` |
| `Bits5To2` | `& 0x3C` | `b % 0x40 - b % 0x4` |
| `Bits7To5` | `& 0xE0` | `b - b % 0x20` |

Unsigned 32-bit arithmetic in address translation is reduced modulo 2^32
explicitly. An `int` length converted to `unsigned int` is also reduced modulo
2^32 (`Load.UInt`). The `(unsigned char)` casts of the frame encoder are
`UChar`, that is `% 0x100`.

### Behaviour worth noting

- **Recovery outcome.** `dataflash_recovery` returns -1 when the button is not
  pressed, and it returns the erase routine's error when the erase fails. Both
  let `load_dataflash` continue with a normal load. Only a successful erase
  stops the load, with -2.
- **SPI teardown.** The controller is not disabled on every exit. A header
  length of -1 returns without `at91_spi_disable`. An `at91_spi_init` failure
  returns before the controller was enabled.
- **AT45 density codes.** The recognised codes are 0x0C, 0x14, …, 0x3C. The
  AT45DB1282D, 2562D and 5122D codes (0x10, 0x18, 0x20) fail like any unknown
  code, because their table entries are commented out.

## Model

| member | source | states |
|---|---|---|
| Spi.Transfers | driver/dataflash.c:140-148 | shifting out `out` is exactly one exchange per byte, in order, each paired with the flash's byte at that exchange |
| Spi.Received | driver/dataflash.c:145-148 | the i-th received data byte is what the flash drives during the i-th exchange of the data phase |
| Spi.TransfersAppend | driver/dataflash.c:140-148 | the command loop followed by the data loop is the exchange sequence of the concatenated bytes, with the data exchanges numbered after the command ones |
| Spi.FrameEvents | driver/dataflash.c:135-150 | a frame opens with chip select then the status clear, closes with the release, and event 2+i exchanges the i-th byte sent |
| Spi.FrameSelectsOnce | driver/dataflash.c:135-150 | within one transport call the chip select is asserted exactly once, as the first event, and released exactly once, as the last |
| Spi.SendCommand | driver/dataflash.c:118-153 | -1 with no bus event exactly when `cmd` is NULL, `cmd_len` is 0, or data is requested without a buffer; otherwise 0, `cmd_len + data_len` exchanges in one frame of the command bytes then zeros, and the data are the replies after the command bytes |
| Spi.Exchange | driver/dataflash.c:135-152 | a well-formed send advances the bus by one exchange per byte, appends exactly one frame, and returns the replies of the data phase |
| Spi.CommandFrameShape | driver/dataflash.c:140-148 | in the frame, event 2+i sends command byte i, and event 2+len+j sends 0 while receiving the j-th data byte |
| Spi.Command | driver/dataflash.c:303-329 | a command with no data phase succeeds exactly when it is non-empty, and then appends one frame of its bytes; on failure the bus is untouched |
| Spi.ReadStatus | driver/dataflash.c:239-249 | a status read is one two-byte frame (opcode, 0), and the status is the flash's reply on the second exchange; it cannot fail |
| Spi.StatusReads | driver/dataflash.c:410-417 | n consecutive status reads advance the bus by 2n exchanges and append n status frames |
| Probe.At45Geometry | driver/dataflash.c:635-699 | the density table knows exactly the codes 0x0C, 0x14, …, 0x3C; every other code, including the commented-out ones, fails |
| Probe.At45GeometryRows | driver/dataflash.c:637-677 | in every row the capacity doubles per density step from 135168 bytes; the shift is 9 for codes up to 0x24 (AT45DB011D–081D), 10 for 0x2C and 0x34 (161D, 321D) and 11 for 0x3C (642D); the page size is 264·2^(shift−9) and below 2^shift; shifted page numbers stay within 24 bits. Together these fix each row's (pages, page size, shift) triple |
| Probe.At45Descriptor | driver/dataflash.c:620-702 | succeeds exactly when `status & 0x3C` is a known code, else fails as unsupported density; the descriptor's pages, page size and page offset are that code's table row; `is_power_2` is status bit 0; the geometry fits 24 address bits |
| Probe.At45DescriptorIgnoresOtherBits | driver/dataflash.c:630-635 | the descriptor depends only on `status & 0x3D` |
| Probe.DescInit | driver/dataflash.c:704-769 | exactly the five family codes succeed; AT25, Spansion and Micron get fixed linear geometries; AT45 uses its status byte; Atmel descriptors fit 24 bits with at most 16384 pages |
| Probe.FixedFamilyGeometries | driver/dataflash.c:704-736 | AT26F and AT26DF get 16384 pages of 256 bytes, S25FL512S 50000 of 512, N25Q 50000 of 256, all linear with no page shift, whatever the status byte |
| Probe.DescInitIgnoresStatus | driver/dataflash.c:744-766 | only the AT45 initialiser consults the status byte |
| Probe.FamilyCode | driver/dataflash.c:792-802 | an unknown manufacturer fails; Atmel keeps bits 7..5 of the device byte (a multiple of 0x20 within 0x20 below it); Spansion and Micron use it whole |
| Probe.Classify | driver/dataflash.c:792-805 | an unknown manufacturer fails as such; a classified part's family is the family code its ID gives; a known manufacturer fails only as an unsupported family or density |
| Probe.ClassifyFamilies | driver/dataflash.c:792-805 | an unknown manufacturer is refused before any initialiser; an Atmel part is never classified as S25FL512S or N25Q; classification succeeds exactly when the family code is supported and, for AT45, the density is known |
| Probe.ReadId | driver/dataflash.c:774-780 | the ID read is one frame of 0x9F then five zeros, and the manufacturer and device bytes are the flash's first two data replies |
| Probe.DescInitOnBus | driver/dataflash.c:620-628 | only the AT45 family touches the bus, with one 0xD7 status read whose reply is the status used |
| Probe.ProbeFlash | driver/dataflash.c:771-807 | the probe's result is the classification of the bytes the flash returned; the bus sees the ID frame and, for AT45 only, one status frame |
| ArrayRead.PhysicalAddress | driver/dataflash.c:169-177 | on a power-of-two part the address is the offset itself |
| ArrayRead.PagedAddressSplits | driver/dataflash.c:169-175 | on a paged part, an in-range offset maps below 2^24 with no 32-bit wrap, and the bits above and below the shift give back the page and the byte within it |
| ArrayRead.PagedAddressInjective | driver/dataflash.c:169-175 | distinct in-range offsets of a paged part get distinct addresses |
| ArrayRead.AddressBelow24Bits | driver/dataflash.c:169-177 | in-range offsets of any descriptor fitting 24 bits map below 2^24 |
| ArrayRead.ShortFrameRoundTrip | driver/dataflash.c:180-184 | the three address bytes of the short frame decode to the address modulo 2^24 |
| ArrayRead.LongFrameRoundTrip | driver/dataflash.c:192-196 | the four address bytes of the long frame decode to the whole 32-bit address |
| ArrayRead.ShortFrameOfAddress | driver/dataflash.c:180-184 | decoding any well-formed short frame and encoding its address again gives the same frame |
| ArrayRead.LongFrameOfAddress | driver/dataflash.c:192-196 | any five bytes led by 0x0B decode to a 32-bit address whose long frame is those five bytes again |
| ArrayRead.ReadFrame | driver/dataflash.c:179-207 | five bytes led by 0x0B; the long form carries the whole address, the short form the address modulo 2^24 and a zero dummy byte; the long form is taken exactly for non-Spansion, non-Micron parts with more than 16384 pages |
| ArrayRead.ProbedAtmelFramesAreExact | driver/dataflash.c:169-202 | for any probed AT25 or AT45 part and in-range offset, the short frame is used and carries the address without loss |
| ArrayRead.ShortFrameIsExact | driver/dataflash.c:179-202 | a part of at most 16384 pages whose geometry fits 24 bits takes the 3-byte branch, which carries every in-range offset's address whole |
| ArrayRead.ProbedDescriptorsUseShortFrames | driver/dataflash.c:192 | no probed descriptor takes the 4-byte branch |
| ArrayRead.LinearFramesTruncate | driver/dataflash.c:179-188 | Spansion and Micron frames carry the offset modulo 2^24 |
| ArrayRead.ReadArray | driver/dataflash.c:155-213 | fails with -1 and no bus event exactly when bytes are requested without a buffer; otherwise one frame of the encoded command then `len` zeros, and buffer byte j is the flash's reply at exchange 5+j |
| ArrayRead.At45db161dDescriptor | driver/dataflash.c:661-665 | an AT45DB161D in non-power-of-two mode is 4096 pages of 528 bytes with a 10-bit byte field |
| ArrayRead.At45db161dRead | driver/dataflash.c:155-213 | reading 1024 bytes at offset 0 of that part sends 0x0B 00 00 00 00 and fills the buffer with the 1024 bytes the flash drives next |
| ArrayRead.At45db041dAddress | driver/dataflash.c:169-184 | the initialiser gives an AT45DB041D (density 0x1C, 264-byte pages) 2048 pages with a 9-bit shift, and offset 530 on it is address 1026, sent as 0x00 0x04 0x02 |
| Recovery.RoutineFor | driver/dataflash.c:595-605 | AT26F and AT26DF take the AT25 routine, 0x02 Spansion, 0xBA Micron, every other family code AT45 |
| Recovery.RecoveryRoutineMatchesProbe | driver/dataflash.c:595-605 | for any probed descriptor, the catch-all AT45 branch is taken exactly for the AT45 family, and the AT25 one exactly for the other Atmel families |
| Recovery.Budgets | driver/dataflash.c:385-537 | `timeout` starts at 1000 in the AT25 and AT45 routines and at 50000 in the Spansion and Micron ones |
| Recovery.StatusOpcode | driver/dataflash.c:239-299 | the poll reads status with 0xD7 on AT45, with the flag-status opcode 0x70 on Micron, and with 0x05 on AT25 and Spansion |
| Recovery.StatusConventions | driver/dataflash.c:415-567 | AT45 and Micron wait for status bit 7 to be set, AT25 and Spansion for bit 0 to clear; so the 0x05 readers test the busy bit and the 0xD7 and 0x70 readers the ready bit |
| Recovery.EraseCommand | driver/dataflash.c:397-552 | each erase command is four bytes, an opcode then address 0; the opcode is 0x20 (4-KByte block erase) exactly for AT25, 0x81 exactly for AT45 and 0xD8 exactly for Spansion and Micron |
| Recovery.EnabledCommand | driver/dataflash.c:463-494 | a write enable (0x06) followed by a non-empty command is two frames, 0x06 then the command, and cannot fail |
| Recovery.PollReady | driver/dataflash.c:410-461 | at most the budget's reads (1000 or 50000); every read before the last succeeded and was busy; the first failed read's code is returned; success exactly when a ready read occurs within the budget, with the counter test (AT25, Spansion, Micron) and the status test (AT45) agreeing |
| Recovery.ClearProtection | driver/dataflash.c:303-329 | a write enable then a status-register write of 0 is two frames, 0x06 then 0x01 0x00, and cannot fail |
| Recovery.UnprotectAt25 | driver/dataflash.c:331-379 | with no SWP bit set, one status read and success; otherwise two protection clears when SPRL is set and one when not, a second status read, and success exactly when that status has none of bits 0x8C set |
| Recovery.UnlockBus | driver/dataflash.c:348-367 | the optional and the global protection clear together are one or two clear sequences, as SPRL was set |
| Recovery.StartErase | driver/dataflash.c:381-406 | an AT25 unprotect failure ends the routine with its code; otherwise, and for the other routines, the write enable where the family has one, then the erase command for address 0 |
| Recovery.IssueErase | driver/dataflash.c:427-445 | the erase command for address 0 (0x81 on AT45; 0x20 on AT25; 0xD8 on Spansion and Micron), preceded by a write enable on every family but AT45 |
| Recovery.BusStatusIsRead | driver/dataflash.c:410-416 | the k-th poll read on the bus yields the status byte of the k-th status frame after the erase |
| Recovery.PollStatus | driver/dataflash.c:410-422 | on the bus, the poll makes n reads, none ready before the last, and a time-out comes after exactly the budget's reads; it succeeds exactly when the last is ready, exactly when some read within the budget is ready |
| Recovery.ErasePage0 | driver/dataflash.c:381-577 | a preparation failure is returned as is with the bus it left; otherwise the bus holds the erase command followed by `polls` status frames, between 1 and the budget; none but the last reports ready; the result is 0 exactly when the last does, and otherwise -1 after exactly the budget's reads; 0 exactly when a status read within the budget reports ready |
| Recovery.Recover | driver/dataflash.c:579-617 | -1 with no bus activity when the button is not pressed; when pressed, the family's routine runs: a preparation failure leaves the bus it left; otherwise the bus holds the erase command and the status frames up to the first ready one (0), or the budget's frames on a time-out (-1); 0 exactly when the routine erases successfully |
| Load.LoadDataflash | driver/dataflash.c:809-890 | 0 exactly when every configured step succeeds; -2 exactly when the recovery erase succeeds, with no read issued; the controller stays enabled exactly on a header length of -1; the reads issued are always a prefix of a full load's reads (header page and image, kernel then device tree), all of them on success and none past the kernel's after a failed kernel read |
| Load.FailedRecoveryFallsThrough | driver/dataflash.c:836-839 | a recovery that does not erase leaves the load exactly as without recovery |
| Load.NegativeLengthWrapsAround | driver/dataflash.c:843-848 | a header length of -2 is stored as the unsigned length 2^32−2 and read as such |

## Left out

- Hardware access is left out: `at91_spi_*` register access, `at91_spi0_hw_init` and `at91_spi_enable`/`at91_spi_disable`. The bus is the event trace above, and the controller state is only the `spiLeftEnabled` flag of `Load.Report`.
- `pio_get_value` on the recovery button is a parameter (`buttonLevel`).
- `udelay` is a timing-only busy wait and leaves no trace.
- `division` (from `div.h`) is not part of this model. It is modelled as Euclidean `/` and `%`, which agree with C for the unsigned operands here. A non-zero page size is required, as every table row has at least 256 bytes.
- A shift by 32 or more bits is undefined in C, so paged translation requires a shift below 32.
- `update_image_length`, `kernel_size` and `of_get_dt_total_size` are not part of this model, because they parse image formats. `load_dataflash` takes their resulting lengths as inputs (`Load.Steps`). Each header read appears as one page-sized entry of the issued reads. Likewise `at91_spi_init`, `dataflash_probe_atmel`, `dataflash_recovery` and the array reads enter `Load.LoadDataflash` as step results. The bus-level behaviour of each is modelled in its own module.
- `dbg_info` logging is left out. The `CONFIG_*` options are the booleans of `Load.Config`.
- The transport failures after `df_send_command` calls inside the driver are unreachable. Every call passes a non-NULL command, a non-zero length and a buffer whenever data is requested. The model keeps these branches: `NOTHING_STORED` and `NOTHING_READ` stand for the untouched status and ID buffers there. Their results are not stated beyond what the successful path gives.
- The poll loop itself (`Recovery.PollReady`) runs over an arbitrary stream of read results that may fail. The failure cases are therefore proved for the loop even though no bus read fails.
- The commented-out AT45DB1282D/2562D/5122D entries are left out, because they are dead code. Those densities fail like any unknown code.
- `spsn_unprotect`, commented out in the Spansion and Micron routines, is left out.
- `CMD_READ_ARRAY_SLOW`, the page-program, erase-chip and other unused command constants, and `DENSITY_N25Q00` are left out, because no modelled code path uses them.
- ArrayRead.PhysicalAddress: its contract states the power-of-two case only. The paged case is described by `PagedAddressSplits` for offsets inside the part. For offsets past the part, the 32-bit wrap-around of `page << page_offset` is given by the function's body alone.
- Recovery.IssueErase: its cited lines are the AT45 routine's preparation. The Spansion (475-502) and Micron (533-560) preparations are the same write-enable-then-erase sequence as AT25's (392-406).
- Recovery.PollReady: its cited lines cover the AT25 and AT45 loops. The Spansion (504-518) and Micron (562-576) loops are the counter kind, with budget 50000.

=== FILE: load.dfy ===
/**
 The control flow of `load_dataflash`: bring up the SPI controller, probe the
 flash, optionally run the recovery erase, then read the kernel image and, if
 the image has one, the device-tree blob.

 Each step is modelled elsewhere or is hardware; here only its return value
 matters, so the flow takes the steps' results as inputs and reports what the
 loader returns, whether it leaves the SPI controller enabled, and which reads
 it issued.
 */
module Load {
  import opened Types

  /** Build options: `CONFIG_DATAFLASH_RECOVERY`, and `CONFIG_LOAD_LINUX` or
      `CONFIG_LOAD_ANDROID`, under which the image lengths come from the images'
      own headers. */
  datatype Config = Config(recovery: bool, lengthsFromHeaders: bool)

  /** The fields of `struct image_info` the loader uses. */
  datatype Image = Image(offset: U32, length: U32, hasDtb: bool, dtbOffset: U32, dtbLength: U32)

  /**
   The results of the steps, as the loader sees them: `at91_spi_init`,
   `dataflash_probe_atmel`, `dataflash_recovery`, the header parsers' lengths
   (`kernel_size`, `of_get_dt_total_size`, or -1 when the header read failed),
   and the two image reads.
   */
  datatype Steps = Steps(spiInit: int, probe: int, recovery: int,
                         kernelLength: int, kernelRead: int,
                         dtbLength: int, dtbRead: int)

  /** One `dataflash_read_array` call: where and how many bytes. */
  datatype Read = Read(offset: U32, length: U32)

  /** What the loader returns, whether it exits with the SPI controller still
      enabled, and the reads it issued, in order. */
  datatype Report = Report(ret: int, spiLeftEnabled: bool, issued: seq<Read>)

  /** The C conversion of an `int` to `unsigned int`. */
  function UInt(x: int): U32
  {
    x % U32_LIMIT
  }

  /** Every step the configuration runs succeeds: in particular the recovery erase
      does not (a successful erase stops the load) and no header yields -1. */
  predicate LoadSucceeds(cfg: Config, image: Image, steps: Steps)
  {
    && steps.spiInit == 0
    && steps.probe == 0
    && !(cfg.recovery && steps.recovery == 0)
    && !(cfg.lengthsFromHeaders && steps.kernelLength == -1)
    && steps.kernelRead == 0
    && (image.hasDtb ==> !(cfg.lengthsFromHeaders && steps.dtbLength == -1) && steps.dtbRead == 0)
  }

  /** The kernel read the loader issues once the flash is identified. */
  function KernelRead(cfg: Config, image: Image, steps: Steps): Read
  {
    Read(image.offset, if cfg.lengthsFromHeaders then UInt(steps.kernelLength) else image.length)
  }

  function DtbRead(cfg: Config, image: Image, steps: Steps): Read
  {
    Read(image.dtbOffset, if cfg.lengthsFromHeaders then UInt(steps.dtbLength) else image.dtbLength)
  }

  /** The header read `update_image_length` makes: one page at the image's offset. */
  function HeaderRead(offset: U32, pageSize: U32): Read
  {
    Read(offset, pageSize)
  }

  /** The reads for one image: its header page first when the length comes from
      the header, then the image itself. */
  function ImageReads(cfg: Config, offset: U32, pageSize: U32, image: Read): seq<Read>
  {
    (if cfg.lengthsFromHeaders then [HeaderRead(offset, pageSize)] else []) + [image]
  }

  /** Every read a fully successful load issues, in order: the kernel's, then the
      device tree's if the image has one. */
  function AllReads(cfg: Config, image: Image, pageSize: U32, steps: Steps): seq<Read>
  {
    ImageReads(cfg, image.offset, pageSize, KernelRead(cfg, image, steps))
    + (if image.hasDtb then ImageReads(cfg, image.dtbOffset, pageSize, DtbRead(cfg, image, steps)) else [])
  }

  /**
   `load_dataflash`. `pageSize` is the probed page size, the amount each header
   read fetches. The result is 0 exactly when every step succeeds; -2 exactly
   when the recovery erase succeeds, after which nothing is read; -1 otherwise.
   The reads issued are always a prefix of those of a full load, and they stop
   at the first failed step. The controller is disabled on every exit except two: an SPI set-up failure,
   which returns before enabling it, and a header length of -1, which returns
   without disabling it.
   */
  function LoadDataflash(cfg: Config, image: Image, pageSize: U32, steps: Steps): (r: Report)
    ensures r.ret == 0 || r.ret == -1 || r.ret == -2
    ensures r.ret == 0 <==> LoadSucceeds(cfg, image, steps)
    ensures r.ret == -2 <==>
      steps.spiInit == 0 && steps.probe == 0 && cfg.recovery && steps.recovery == 0
    ensures r.ret == -2 ==> r.issued == []
    ensures r.spiLeftEnabled <==>
      && steps.spiInit == 0 && steps.probe == 0 && !(cfg.recovery && steps.recovery == 0)
      && cfg.lengthsFromHeaders
      && (steps.kernelLength == -1 || (steps.kernelRead == 0 && image.hasDtb && steps.dtbLength == -1))
    ensures r.spiLeftEnabled ==> r.ret == -1
    ensures r.ret == 0 ==> r.issued == AllReads(cfg, image, pageSize, steps)
    ensures r.issued <= AllReads(cfg, image, pageSize, steps)
    ensures steps.kernelRead != 0 ==> r.issued <= ImageReads(cfg, image.offset, pageSize, KernelRead(cfg, image, steps))
  {
    if steps.spiInit != 0 then Report(-1, false, [])
    else if steps.probe != 0 then Report(-1, false, [])
    else if cfg.recovery && steps.recovery == 0 then Report(-2, false, [])
    else
      var kernelHeader := if cfg.lengthsFromHeaders then [HeaderRead(image.offset, pageSize)] else [];
      if cfg.lengthsFromHeaders && steps.kernelLength == -1 then Report(-1, true, kernelHeader)
      else
        var kernel := kernelHeader + [KernelRead(cfg, image, steps)];
        if steps.kernelRead != 0 then Report(-1, false, kernel)
        else if !image.hasDtb then Report(0, false, kernel)
        else
          var dtbHeader := if cfg.lengthsFromHeaders then [HeaderRead(image.dtbOffset, pageSize)] else [];
          if cfg.lengthsFromHeaders && steps.dtbLength == -1 then Report(-1, true, kernel + dtbHeader)
          else
            var all := kernel + dtbHeader + [DtbRead(cfg, image, steps)];
            if steps.dtbRead != 0 then Report(-1, false, all)
            else Report(0, false, all)
  }

  /** A recovery that does not erase (button not pressed, or the erase failed)
      leaves the load exactly as if the recovery were not configured. */
  lemma FailedRecoveryFallsThrough(cfg: Config, image: Image, pageSize: U32, steps: Steps)
    requires steps.recovery != 0
    ensures LoadDataflash(cfg, image, pageSize, steps)
         == LoadDataflash(cfg.(recovery := false), image, pageSize, steps)
  {
  }

  /** With lengths from the headers, a parser result other than -1 is taken as an
      unsigned length: a negative error code such as -2 becomes a read of
      2^32 - 2 bytes. */
  lemma NegativeLengthWrapsAround(cfg: Config, image: Image, pageSize: U32, steps: Steps)
    requires cfg.lengthsFromHeaders && steps.spiInit == 0 && steps.probe == 0
    requires !(cfg.recovery && steps.recovery == 0)
    requires steps.kernelLength == -2
    ensures var r := LoadDataflash(cfg, image, pageSize, steps);
      |r.issued| >= 2 && r.issued[1] == Read(image.offset, U32_LIMIT - 2)
  {
  }
}

=== FILE: probe.dfy ===
/**
 Identification of the serial flash: the JEDEC ID read (`dataflash_probe_atmel`),
 the family dispatch (`df_desc_init`) and the per-family geometry initialisers
 (`df_at45_desc_init`, `df_at25_desc_init`, `df_spsn_desc_init`,
 `df_micron_desc_init`).
 */
module Probe {
  import opened Types
  import opened Spi

  const CMD_READ_DEV_ID: Byte := 0x9F
  const CMD_READ_STATUS_AT45: Byte := 0xD7

  const MANUFACTURER_ID_ATMEL: Byte := 0x1F
  const MANUFACTURER_ID_SPANSION: Byte := 0x01
  const MANUFACTURER_ID_MICRON: Byte := 0x20

  const DF_FAMILY_AT26F: Byte := 0x00
  const DF_FAMILY_AT45: Byte := 0x20
  const DF_FAMILY_AT26DF: Byte := 0x40
  const DF_FAMILY_S25FL512S: Byte := 0x02
  const DF_FAMILY_N25Q: Byte := 0xBA

  /** Bytes covered by 24 address bits. */
  const SPAN_24: nat := 0x100_0000

  /** `struct dataflash_descriptor`. */
  datatype Descriptor = Descriptor(family: Byte, pages: U32, pageSize: U32, pageOffset: U32, isPower2: bool)

  datatype Geometry = Geometry(pages: U32, pageSize: U32, pageOffset: U32)

  datatype ProbeError =
    | TransportFailed(code: int)    // a df_send_command or status-read failure, passed up as is
    | UnsupportedManufacturer       // -1 from dataflash_probe_atmel
    | UnsupportedFamily             // -1 from df_desc_init
    | UnsupportedDensity            // -1 from df_at45_desc_init

  predicate IsAtmelFamily(family: Byte)
  {
    family == DF_FAMILY_AT26F || family == DF_FAMILY_AT26DF || family == DF_FAMILY_AT45
  }

  predicate IsSupportedFamily(family: Byte)
  {
    IsAtmelFamily(family) || family == DF_FAMILY_S25FL512S || family == DF_FAMILY_N25Q
  }

  /** Geometry that a paged (non power-of-two) read can address through a
      3-byte address: every byte index below `pages * pageSize` maps below 2^24. */
  predicate FitsIn24Bits(d: Descriptor)
  {
    && 0 < d.pageSize
    && d.pages * d.pageSize <= SPAN_24
    && (!d.isPower2 ==>
          && d.pageOffset < 32
          && d.pageSize < Pow2(d.pageOffset)
          && d.pages * Pow2(d.pageOffset) <= SPAN_24)
  }

  /**
   The AT45 density table (`switch (density)` in df_at45_desc_init). Exactly the
   codes 0x0C, 0x14, ..., 0x3C are known; each step doubles the capacity, which
   starts at 135168 bytes (AT45DB011D); a page holds 264, 528 or 1056 bytes and
   fits in the bits below `pageOffset`. The AT45DB1282D, 2562D and 5122D codes
   (0x10, 0x18, 0x20) are not entries of the switch and fail like any unknown code.
   */
  function At45Geometry(density: Byte): (g: Option<Geometry>)
    ensures g.Some? <==> density % 8 == 4 && 0x0C <= density <= 0x3C
  {
    if density == 0x0C then Some(Geometry(512, 264, 9))          // AT45DB011D
    else if density == 0x14 then Some(Geometry(1024, 264, 9))    // AT45DB021D
    else if density == 0x1C then Some(Geometry(2048, 264, 9))    // AT45DB041D
    else if density == 0x24 then Some(Geometry(4096, 264, 9))    // AT45DB081D
    else if density == 0x2C then Some(Geometry(4096, 528, 10))   // AT45DB161D
    else if density == 0x34 then Some(Geometry(8192, 528, 10))   // AT45DB321D
    else if density == 0x3C then Some(Geometry(8192, 1056, 11))  // AT45DB642D
    else None
  }

  /** Every row of the AT45 table: the capacity doubles with each density step
      from 135168 bytes; the four smallest parts use a 9-bit byte field, the
      AT45DB161D and 321D a 10-bit one and the AT45DB642D an 11-bit one; a page
      holds 264 bytes times 2 to the shift beyond 9, fits below its shift, and
      the shifted page numbers stay within 24 address bits. Together these fix
      the (pages, page size, shift) triple of each row. */
  lemma At45GeometryRows(density: Byte)
    requires At45Geometry(density).Some?
    ensures var g := At45Geometry(density).value;
      && g.pages * g.pageSize == 135168 * Pow2((density - 0x0C) / 8)
      && g.pageOffset == (if density <= 0x24 then 9 else if density <= 0x34 then 10 else 11)
      && g.pageSize == 264 * Pow2(g.pageOffset - 9)
      && g.pageSize < Pow2(g.pageOffset)
      && g.pages * Pow2(g.pageOffset) <= SPAN_24
  {
    var k := (density - 0x0C) / 8;
    assert 0 <= k <= 6;
    assert Pow2(k) == [1, 2, 4, 8, 16, 32, 64][k];
  }

  /** `df_at45_desc_init` once the status byte is known. */
  function At45Descriptor(status: Byte): (r: Result<Descriptor, ProbeError>)
    ensures r.Ok? <==> At45Geometry(Bits5To2(status)).Some?
    ensures r.Err? ==> r.error == UnsupportedDensity
    ensures r.Ok? ==>
      && r.value.family == DF_FAMILY_AT45
      && r.value.isPower2 == Bit0(status)
      && Geometry(r.value.pages, r.value.pageSize, r.value.pageOffset) == At45Geometry(Bits5To2(status)).value
      && FitsIn24Bits(r.value)
  {
    var isPower2 := Bit0(status);
    match At45Geometry(Bits5To2(status))
    case None => Err(UnsupportedDensity)
    case Some(g) =>
      At45GeometryRows(Bits5To2(status));
      Ok(Descriptor(DF_FAMILY_AT45, g.pages, g.pageSize, g.pageOffset, isPower2))
  }

  /** Only the page-size bit and the four density bits of the AT45 status matter:
      the descriptor is the same as for `status & 0x3D`. */
  lemma At45DescriptorIgnoresOtherBits(status: Byte)
    ensures At45Descriptor(status) == At45Descriptor(Bits5To2(status) + status % 2)
  {
    MaskedStatus(status);
  }

  /** `status & 0x3D` keeps the density bits and the page-size bit. */
  lemma MaskedStatus(status: Byte)
    ensures var kept := Bits5To2(status) + status % 2;
      0 <= kept < 0x100 && Bits5To2(kept) == Bits5To2(status) && Bit0(kept) == Bit0(status)
  {
    var low, mid := status % 2, status % 0x40 / 4;
    assert status % 0x40 == mid * 4 + status % 4;
    assert Bits5To2(status) == mid * 4;
    var kept := mid * 4 + low;
    assert kept % 0x40 == kept && kept % 4 == low;
  }

  /**
   `df_desc_init(df_desc, family)`: the family-specific initialiser.
   `at45Status` is the AT45 status byte, consulted only for the AT45 family.
   */
  function DescInit(family: Byte, at45Status: Byte): (r: Result<Descriptor, ProbeError>)
    ensures r.Ok? ==> r.value.family == family && IsSupportedFamily(family)
    ensures !IsSupportedFamily(family) ==> r == Err(UnsupportedFamily)
    ensures family == DF_FAMILY_AT45 ==> r == At45Descriptor(at45Status)
    ensures IsSupportedFamily(family) && family != DF_FAMILY_AT45 ==>
      r.Ok? && r.value.isPower2 && r.value.pageOffset == 0
    ensures r.Ok? && IsAtmelFamily(family) ==> FitsIn24Bits(r.value) && r.value.pages <= 16384
    ensures r.Ok? ==> r.value.pageSize >= 256 && r.value.pageOffset < 32
  {
    if family == DF_FAMILY_AT26F || family == DF_FAMILY_AT26DF then
      Ok(Descriptor(family, 16384, 256, 0, true))                      // df_at25_desc_init (AT25DF321)
    else if family == DF_FAMILY_AT45 then
      At45Descriptor(at45Status)
    else if family == DF_FAMILY_S25FL512S then
      Ok(Descriptor(family, 50000, 512, 0, true))                      // df_spsn_desc_init
    else if family == DF_FAMILY_N25Q then
      Ok(Descriptor(family, 50000, 256, 0, true))                      // df_micron_desc_init
    else
      Err(UnsupportedFamily)
  }

  /** The fixed geometries: the AT25DF321 values for both AT26 family codes, and
      the nominal 50000-page tables of the Spansion and Micron parts. None of
      them depends on the status byte. */
  lemma FixedFamilyGeometries(status: Byte)
    ensures DescInit(DF_FAMILY_AT26F, status) == Ok(Descriptor(DF_FAMILY_AT26F, 16384, 256, 0, true))
    ensures DescInit(DF_FAMILY_AT26DF, status) == Ok(Descriptor(DF_FAMILY_AT26DF, 16384, 256, 0, true))
    ensures DescInit(DF_FAMILY_S25FL512S, status) == Ok(Descriptor(DF_FAMILY_S25FL512S, 50000, 512, 0, true))
    ensures DescInit(DF_FAMILY_N25Q, status) == Ok(Descriptor(DF_FAMILY_N25Q, 50000, 256, 0, true))
  {
  }

  /** The family code `dataflash_probe_atmel` derives from the first two ID bytes:
      Atmel parts keep only bits 7..5 of the device byte, the other two makers
      use it whole. */
  function FamilyCode(manufacturer: Byte, device: Byte): (r: Result<Byte, ProbeError>)
    ensures r.Err? <==>
      manufacturer !in {MANUFACTURER_ID_ATMEL, MANUFACTURER_ID_SPANSION, MANUFACTURER_ID_MICRON}
    ensures r.Err? ==> r.error == UnsupportedManufacturer
    ensures r.Ok? && manufacturer == MANUFACTURER_ID_ATMEL ==>
      r.value % 0x20 == 0 && r.value <= device < r.value + 0x20
    ensures r.Ok? && manufacturer != MANUFACTURER_ID_ATMEL ==> r.value == device
  {
    if manufacturer != MANUFACTURER_ID_ATMEL && manufacturer != MANUFACTURER_ID_SPANSION
       && manufacturer != MANUFACTURER_ID_MICRON then
      Err(UnsupportedManufacturer)
    else if manufacturer == MANUFACTURER_ID_ATMEL then
      Ok(Bits7To5(device))
    else
      Ok(device)
  }

  /** The whole classification, from the ID bytes (and the AT45 status byte, when
      the family asks for it) to a descriptor. */
  function Classify(manufacturer: Byte, device: Byte, at45Status: Byte): (r: Result<Descriptor, ProbeError>)
    ensures FamilyCode(manufacturer, device).Err? ==> r == Err(UnsupportedManufacturer)
    ensures r.Ok? ==> FamilyCode(manufacturer, device).Ok? && r.value.family == FamilyCode(manufacturer, device).value
    ensures r.Err? && FamilyCode(manufacturer, device).Ok? ==>
      r.error == UnsupportedFamily || r.error == UnsupportedDensity
  {
    match FamilyCode(manufacturer, device)
    case Err(e) => Err(e)
    case Ok(family) => DescInit(family, at45Status)
  }

  /** An unknown manufacturer is refused before any family initialiser runs, and an
      Atmel part is only ever classified into an Atmel family: its masked family
      code can never equal the S25FL512S (0x02) or N25Q (0xBA) codes. */
  lemma ClassifyFamilies(manufacturer: Byte, device: Byte, at45Status: Byte)
    ensures manufacturer !in {MANUFACTURER_ID_ATMEL, MANUFACTURER_ID_SPANSION, MANUFACTURER_ID_MICRON} ==>
      Classify(manufacturer, device, at45Status) == Err(UnsupportedManufacturer)
    ensures manufacturer == MANUFACTURER_ID_ATMEL && Classify(manufacturer, device, at45Status).Ok? ==>
      IsAtmelFamily(Classify(manufacturer, device, at45Status).value.family)
    ensures Classify(manufacturer, device, at45Status).Ok? <==>
      && FamilyCode(manufacturer, device).Ok?
      && IsSupportedFamily(FamilyCode(manufacturer, device).value)
      && (FamilyCode(manufacturer, device).value == DF_FAMILY_AT45 ==>
            At45Geometry(Bits5To2(at45Status)).Some?)
  {
  }

  /** The ID bytes of a read that stored nothing. */
  const NOTHING_READ: seq<Byte> := [0, 0, 0, 0, 0]

  /** Outcome of the probe: the descriptor or the failure, and the bus afterwards. */
  datatype Probed = Probed(result: Result<Descriptor, ProbeError>, bus: Bus)

  /** `df_desc_init` on the bus: only the AT45 initialiser talks to the flash
      (one 0xD7 status read). */
  function DescInitOnBus(dev: Miso, bus: Bus, family: Byte): (r: Probed)
    ensures family == DF_FAMILY_AT45 ==>
      r == Probed(DescInit(family, dev(bus.cursor + 1)),
                  Bus(bus.cursor + 2, bus.trace + Frame(dev, bus.cursor, [CMD_READ_STATUS_AT45, 0])))
    ensures family != DF_FAMILY_AT45 ==> r.bus == bus && r.result == DescInit(family, 0)
  {
    if family == DF_FAMILY_AT45 then
      var (st, after) := ReadStatus(dev, bus, CMD_READ_STATUS_AT45);
      if st.ret != 0 then Probed(Err(TransportFailed(st.ret)), after)
      else Probed(DescInit(family, st.status), after)
    else
      Probed(DescInit(family, 0), bus)
  }

  /**
   `dataflash_probe_atmel`: read five ID bytes with 0x9F, then classify. The
   result is the pure classification of the bytes the flash returned; the bus
   sees the ID frame and, for the AT45 family only, one status frame.
   */
  function ProbeFlash(dev: Miso, bus: Bus): (r: Probed)
    ensures var c := bus.cursor;
      r.result == Classify(dev(c + 1), dev(c + 2), dev(c + 7))
    ensures var c := bus.cursor;
      var idFrame := Frame(dev, c, [CMD_READ_DEV_ID, 0, 0, 0, 0, 0]);
      if FamilyCode(dev(c + 1), dev(c + 2)) == Ok(DF_FAMILY_AT45) then
        r.bus == Bus(c + 8, bus.trace + idFrame + Frame(dev, c + 6, [CMD_READ_STATUS_AT45, 0]))
      else
        r.bus == Bus(c + 6, bus.trace + idFrame)
  {
    var (id, afterId) := ReadId(dev, bus);
    match FamilyCode(id[0], id[1])
    case Err(e) => Probed(Err(e), afterId)
    case Ok(family) =>
      DescInitIgnoresStatus(family, 0, dev(bus.cursor + 7));
      DescInitOnBus(dev, afterId, family)
  }

  /** The ID read: opcode 0x9F and five data bytes, of which the first two are the
      manufacturer and device bytes. */
  function ReadId(dev: Miso, bus: Bus): (r: (seq<Byte>, Bus))
    ensures |r.0| == 5 && r.0[0] == dev(bus.cursor + 1) && r.0[1] == dev(bus.cursor + 2)
    ensures r.1 == Bus(bus.cursor + 6, bus.trace + Frame(dev, bus.cursor, [CMD_READ_DEV_ID, 0, 0, 0, 0, 0]))
  {
    var s := SendCommand(dev, bus, Some([CMD_READ_DEV_ID]), 1, true, 5);
    assert [CMD_READ_DEV_ID][..1] + Zeros(5) == [CMD_READ_DEV_ID, 0, 0, 0, 0, 0];
    if s.ret != 0 then (NOTHING_READ, s.bus) else (s.data, s.bus)
  }

  /** Only the AT45 initialiser looks at the status byte. */
  lemma DescInitIgnoresStatus(family: Byte, s1: Byte, s2: Byte)
    ensures family != DF_FAMILY_AT45 ==> DescInit(family, s1) == DescInit(family, s2)
  {
  }
}

=== FILE: read_array.dfy ===
/**
 `dataflash_read_array`: translation of a byte offset in the image into the
 flash's address, encoding of the 5-byte fast-read frame, and the single
 transport call that clocks the data in.
 */
module ArrayRead {
  import opened Types
  import opened Spi
  import opened Probe

  const CMD_READ_ARRAY_FAST: Byte := 0x0B

  /** Past this many pages a non-Spansion, non-Micron part gets a 4-byte address. */
  const LONG_ADDRESS_PAGES: nat := 16384

  /** What the address computation needs of a descriptor: a paged descriptor
      must have a non-zero page size (the divisor) and a shift below the word width. */
  predicate Translatable(d: Descriptor)
  {
    d.isPower2 || (0 < d.pageSize && d.pageOffset < 32)
  }

  /**
   The address sent to the flash for byte `offset`: unchanged for power-of-two
   parts; otherwise `(page << page_offset) + byte` with page and byte the quotient
   and remainder of `offset` by the page size, in 32-bit unsigned arithmetic.
   */
  function PhysicalAddress(d: Descriptor, offset: U32): (a: U32)
    requires Translatable(d)
    ensures d.isPower2 ==> a == offset
  {
    if !d.isPower2 then
      var page := offset / d.pageSize;
      var byte := offset % d.pageSize;
      ((page * Pow2(d.pageOffset)) % U32_LIMIT + byte) % U32_LIMIT
    else
      offset
  }

  lemma MulNonneg(a: nat, b: nat)
    ensures a * b >= 0
  {
  }

  lemma MulMonotone(a: nat, b: nat, c: nat)
    requires a <= b
    ensures a * c <= b * c
  {
    MulNonneg(b - a, c);
    assert b * c == a * c + (b - a) * c;
  }

  lemma MulStrict(k: int, p: int)
    requires p > 0 && -p < k * p < p
    ensures k == 0
  {
    if k >= 1 {
      assert k * p == (k - 1) * p + p;
      MulNonneg(k - 1, p);
    } else if k <= -1 {
      assert k * p == (k + 1) * p - p;
      MulNonneg(-(k + 1), p);
    }
  }

  /** Quotient and remainder are unique. */
  lemma DivModUnique(q: nat, r: nat, p: nat)
    requires r < p
    ensures (q * p + r) / p == q && (q * p + r) % p == r
  {
    var x := q * p + r;
    var k := x / p - q;
    assert x == (x / p) * p + x % p;
    assert k * p == r - x % p;
    MulStrict(k, p);
  }

  /**
   On a paged part whose pages fit below their shift, an offset inside the part
   maps below 2^24 with no 32-bit wrap-around, and the address splits back into
   the page (bits above `pageOffset`) and the byte within the page (bits below).
   */
  lemma PagedAddressSplits(d: Descriptor, offset: U32)
    requires !d.isPower2 && FitsIn24Bits(d)
    requires offset < d.pages * d.pageSize
    ensures var a := PhysicalAddress(d, offset);
      && a < SPAN_24
      && a / Pow2(d.pageOffset) == offset / d.pageSize
      && a % Pow2(d.pageOffset) == offset % d.pageSize
  {
    PageSplit(offset, d.pageSize, Pow2(d.pageOffset), d.pages);
  }

  /** `PagedAddressSplits` on plain numbers: page size `ps`, shift `2^k = p`. */
  lemma PageSplit(offset: nat, ps: nat, p: nat, pages: nat)
    requires 0 < ps < p && offset < pages * ps && pages * p <= SPAN_24
    ensures var a := ((offset / ps * p) % U32_LIMIT + offset % ps) % U32_LIMIT;
      a < SPAN_24 && a / p == offset / ps && a % p == offset % ps
  {
    QuotientBelow(offset, ps, pages);
    ShiftedSlot(offset / ps, offset % ps, p, pages);
  }

  /** `(page << shift) + byte` with `byte` below `2^shift = p` and `page` below a
      count of pages whose shifted span fits in 24 bits: no 32-bit wrap-around, and
      the address splits back into page and byte. */
  lemma ShiftedSlot(page: nat, byte: nat, p: nat, pages: nat)
    requires page < pages && byte < p && pages * p <= SPAN_24
    ensures var a := ((page * p) % U32_LIMIT + byte) % U32_LIMIT;
      a == page * p + byte && a < SPAN_24 && a / p == page && a % p == byte
  {
    SlotBelow(page, byte, p, pages, SPAN_24);
    MulNonneg(page, p);
    var slot := page * p;
    assert slot % U32_LIMIT == slot;
    assert (slot + byte) % U32_LIMIT == slot + byte;
    DivModUnique(page, byte, p);
  }

  lemma QuotientBelow(x: nat, size: nat, count: nat)
    requires 0 < size && x < count * size
    ensures x / size < count
  {
    if x / size >= count {
      MulMonotone(count, x / size, size);
    }
  }

  lemma SlotBelow(page: nat, byte: nat, p: nat, pages: nat, bound: nat)
    requires page < pages && byte < p && pages * p <= bound
    ensures page * p + byte < bound
  {
    MulMonotone(page + 1, pages, p);
    assert (page + 1) * p == page * p + p;
  }

  /** Distinct offsets inside a paged part are sent as distinct addresses. */
  lemma PagedAddressInjective(d: Descriptor, o1: U32, o2: U32)
    requires !d.isPower2 && FitsIn24Bits(d)
    requires o1 < d.pages * d.pageSize && o2 < d.pages * d.pageSize
    requires PhysicalAddress(d, o1) == PhysicalAddress(d, o2)
    ensures o1 == o2
  {
    PagedAddressSplits(d, o1);
    PagedAddressSplits(d, o2);
    SameQuotientAndRemainder(o1, o2, d.pageSize);
  }

  lemma SameQuotientAndRemainder(x: nat, y: nat, p: nat)
    requires 0 < p && x / p == y / p && x % p == y % p
    ensures x == y
  {
    assert x == (x / p) * p + x % p;
    assert y == (y / p) * p + y % p;
  }

  /** Every offset inside an AT25 or AT45 part has an address below 2^24. */
  lemma AddressBelow24Bits(d: Descriptor, offset: U32)
    requires FitsIn24Bits(d)
    requires offset < d.pages * d.pageSize
    ensures PhysicalAddress(d, offset) < SPAN_24
  {
    if !d.isPower2 {
      PagedAddressSplits(d, offset);
    }
  }

  /** The 3-byte form: opcode, address bits 23..0 most significant first, a dummy byte. */
  function ShortFrame(address: U32): seq<Byte>
  {
    [CMD_READ_ARRAY_FAST, UChar(address / 0x1_0000), UChar(address / 0x100), UChar(address), 0]
  }

  /** The 4-byte form: opcode, address bits 31..0 most significant first, no dummy byte. */
  function LongFrame(address: U32): seq<Byte>
  {
    [CMD_READ_ARRAY_FAST, UChar(address / 0x100_0000), UChar(address / 0x1_0000), UChar(address / 0x100), UChar(address)]
  }

  /** The address a 3-byte frame carries. */
  function ShortAddressOf(f: seq<Byte>): nat
    requires |f| == 5
  {
    f[1] as int * 0x1_0000 + f[2] as int * 0x100 + f[3]
  }

  /** The address a 4-byte frame carries. */
  function LongAddressOf(f: seq<Byte>): nat
    requires |f| == 5
  {
    f[1] as int * 0x100_0000 + f[2] as int * 0x1_0000 + f[3] as int * 0x100 + f[4]
  }

  predicate UsesLongAddress(d: Descriptor)
  {
    d.family != DF_FAMILY_S25FL512S && d.family != DF_FAMILY_N25Q && d.pages > LONG_ADDRESS_PAGES
  }

  lemma ShortFrameRoundTrip(address: U32)
    ensures ShortAddressOf(ShortFrame(address)) == address % SPAN_24
  {
    LowDigits(address);
  }

  lemma LongFrameRoundTrip(address: U32)
    ensures LongAddressOf(LongFrame(address)) == address
  {
    LowDigits(address);
    var top := address / SPAN_24;
    assert address == top * SPAN_24 + address % SPAN_24;
    assert top % 0x100 == top;
  }

  /** The low three base-256 digits of `a`, as the 3-byte frame extracts them,
      make up `a` modulo 2^24. */
  lemma LowDigits(a: nat)
    ensures (a / 0x1_0000 % 0x100) * 0x1_0000 + (a / 0x100 % 0x100) * 0x100 + a % 0x100 == a % SPAN_24
  {
    var q, r := a / 0x1_0000, a % 0x1_0000;
    var r1, r0 := r / 0x100, r % 0x100;
    assert a == (q * 0x100 + r1) * 0x100 + r0;
    DivModUnique(q * 0x100 + r1, r0, 0x100);
    DivModUnique(q, r1, 0x100);
    assert a == (q / 0x100) * SPAN_24 + ((q % 0x100) * 0x1_0000 + r);
    DivModUnique(q / 0x100, (q % 0x100) * 0x1_0000 + r, SPAN_24);
  }

  /**
   The command part of the read: always five bytes led by the fast-read opcode.
   Spansion and Micron parts, and any part of at most 16384 pages, get the low
   24 address bits and a zero dummy byte; larger parts of other families get the
   full 32-bit address.
   */
  function ReadFrame(d: Descriptor, address: U32): (f: seq<Byte>)
    ensures |f| == 5 && f[0] == CMD_READ_ARRAY_FAST
    ensures UsesLongAddress(d) ==> LongAddressOf(f) == address
    ensures !UsesLongAddress(d) ==> ShortAddressOf(f) == address % SPAN_24 && f[4] == 0
  {
    if d.family == DF_FAMILY_S25FL512S || d.family == DF_FAMILY_N25Q then
      ShortFrameRoundTrip(address);
      ShortFrame(address)
    else if d.pages > LONG_ADDRESS_PAGES then
      LongFrameRoundTrip(address);
      LongFrame(address)
    else
      ShortFrameRoundTrip(address);
      ShortFrame(address)
  }

  /** Decoding a well-formed 3-byte frame and encoding the address again gives the frame back. */
  lemma ShortFrameOfAddress(f: seq<Byte>)
    requires |f| == 5 && f[0] == CMD_READ_ARRAY_FAST && f[4] == 0
    ensures ShortAddressOf(f) < SPAN_24
    ensures ShortFrame(ShortAddressOf(f)) == f
  {
    ShortFrameOfDigits(f[1], f[2], f[3], ShortAddressOf(f));
    assert f == [CMD_READ_ARRAY_FAST, f[1], f[2], f[3], 0];
  }

  lemma ShortFrameOfDigits(hi: Byte, mid: Byte, lo: Byte, a: nat)
    requires a == hi as int * 0x1_0000 + mid as int * 0x100 + lo
    ensures a < SPAN_24 && ShortFrame(a) == [CMD_READ_ARRAY_FAST, hi, mid, lo, 0]
  {
    ShortAddressDigits(hi, mid, lo, a);
    ByteOfValue(hi, a / 0x1_0000);
    ByteOfValue(mid, a / 0x100);
    ByteOfValue(lo, a);
  }

  /** The base-256 digits of a 24-bit number. */
  lemma ShortAddressDigits(hi: nat, mid: nat, lo: nat, a: nat)
    requires hi < 0x100 && mid < 0x100 && lo < 0x100
    requires a == hi * 0x1_0000 + mid * 0x100 + lo
    ensures a < SPAN_24 && a / 0x1_0000 == hi && (a / 0x100) % 0x100 == mid && a % 0x100 == lo
  {
    assert a == (hi * 0x100 + mid) * 0x100 + lo;
    DivModUnique(hi * 0x100 + mid, lo, 0x100);
    DivModUnique(hi, mid * 0x100 + lo, 0x1_0000);
    DivModUnique(hi, mid, 0x100);
  }

  /** Decoding a frame led by the fast-read opcode as a 4-byte address and
      encoding that address again gives the frame back. */
  lemma LongFrameOfAddress(f: seq<Byte>)
    requires |f| == 5 && f[0] == CMD_READ_ARRAY_FAST
    ensures LongAddressOf(f) < U32_LIMIT
    ensures LongFrame(LongAddressOf(f)) == f
  {
    var a := LongAddressOf(f);
    LongAddressDigits(f[1], f[2], f[3], f[4], a);
    ByteOfValue(f[1], a / 0x100_0000);
    ByteOfValue(f[2], a / 0x1_0000);
    ByteOfValue(f[3], a / 0x100);
    ByteOfValue(f[4], a);
    assert f == [CMD_READ_ARRAY_FAST, f[1], f[2], f[3], f[4]];
  }

  /** The base-256 digits of a 32-bit number. */
  lemma LongAddressDigits(b3: nat, b2: nat, b1: nat, b0: nat, a: nat)
    requires b3 < 0x100 && b2 < 0x100 && b1 < 0x100 && b0 < 0x100
    requires a == b3 * 0x100_0000 + b2 * 0x1_0000 + b1 * 0x100 + b0
    ensures a < U32_LIMIT
    ensures a / 0x100_0000 == b3 && (a / 0x1_0000) % 0x100 == b2
    ensures (a / 0x100) % 0x100 == b1 && a % 0x100 == b0
  {
    var low := b2 * 0x1_0000 + b1 * 0x100 + b0;
    ShortAddressDigits(b2, b1, b0, low);
    MulMonotone(b3, 0xFF, SPAN_24);
    DivModUnique(b3, low, SPAN_24);
    assert a == (b3 * 0x100 + b2) * 0x1_0000 + (b1 * 0x100 + b0);
    DivModUnique(b3 * 0x100 + b2, b1 * 0x100 + b0, 0x1_0000);
    DivModUnique(b3, b2, 0x100);
    assert a == (b3 * 0x1_0000 + b2 * 0x100 + b1) * 0x100 + b0;
    DivModUnique(b3 * 0x1_0000 + b2 * 0x100 + b1, b0, 0x100);
    DivModUnique(b3 * 0x100 + b2, b1, 0x100);
  }

  lemma ByteOfValue(b: Byte, x: nat)
    requires x % 0x100 == b
    ensures UChar(x) == b
  {
  }

  /** The read frame never loses address bits for a probed AT25 or AT45 part: the
      4-byte branch is never taken and the 3 bytes carry the whole address. */
  lemma ProbedAtmelFramesAreExact(family: Byte, status: Byte, offset: U32)
    requires IsAtmelFamily(family) && DescInit(family, status).Ok?
    requires offset < DescInit(family, status).value.pages * DescInit(family, status).value.pageSize
    ensures var d := DescInit(family, status).value;
      var a := PhysicalAddress(d, offset);
      && !UsesLongAddress(d)
      && ShortAddressOf(ReadFrame(d, a)) == a
  {
    var d := DescInit(family, status).value;
    assert FitsIn24Bits(d) && d.pages <= LONG_ADDRESS_PAGES;
    ShortFrameIsExact(d, offset);
  }

  /** A part of at most 16384 pages whose geometry fits 24 bits gets the 3-byte
      form, and it carries the address of every in-range offset whole. */
  lemma ShortFrameIsExact(d: Descriptor, offset: U32)
    requires FitsIn24Bits(d) && d.pages <= LONG_ADDRESS_PAGES
    requires offset < d.pages * d.pageSize
    ensures !UsesLongAddress(d)
    ensures ShortAddressOf(ReadFrame(d, PhysicalAddress(d, offset))) == PhysicalAddress(d, offset)
  {
    AddressBelow24Bits(d, offset);
    var a := PhysicalAddress(d, offset);
    assert a % SPAN_24 == a;
  }

  /** No descriptor the probe produces takes the 4-byte branch. */
  lemma ProbedDescriptorsUseShortFrames(family: Byte, status: Byte)
    ensures DescInit(family, status).Ok? ==> !UsesLongAddress(DescInit(family, status).value)
  {
  }

  /** Spansion and Micron parts always get the 3-byte form, holding the offset modulo 2^24. */
  lemma LinearFramesTruncate(d: Descriptor, offset: U32)
    requires d.family == DF_FAMILY_S25FL512S || d.family == DF_FAMILY_N25Q
    requires d.isPower2
    ensures ReadFrame(d, PhysicalAddress(d, offset)) == ShortFrame(offset)
    ensures ShortAddressOf(ReadFrame(d, PhysicalAddress(d, offset))) == offset % SPAN_24
  {
  }

  /**
   `dataflash_read_array(df_desc, offset, len, buf)`; `hasBuffer` says whether
   `buf` is non-NULL. One transport call sends the frame and clocks `len` bytes in;
   any transport failure becomes -1.
   */
  function ReadArray(dev: Miso, bus: Bus, d: Descriptor, offset: U32, len: U32, hasBuffer: bool): (r: Sent)
    requires Translatable(d)
    ensures r.ret == 0 <==> (len > 0 ==> hasBuffer)
    ensures r.ret != 0 ==> r.ret == -1 && r.bus == bus
    ensures r.ret == 0 ==>
      && r.bus.cursor == bus.cursor + 5 + len
      && r.bus.trace == bus.trace + Frame(dev, bus.cursor, ReadFrame(d, PhysicalAddress(d, offset)) + Zeros(len))
      && |r.data| == len
      && forall j :: 0 <= j < len ==> r.data[j] == dev(bus.cursor + 5 + j)
  {
    var address := PhysicalAddress(d, offset);
    var frame := ReadFrame(d, address);
    var s := SendCommand(dev, bus, Some(frame), 5, hasBuffer, len);
    assert frame[..5] == frame;
    if s.ret != 0 then Sent(-1, s.data, s.bus) else s
  }

  /** An AT45DB161D (density 0x2C) in non-power-of-two mode is 4096 pages of 528
      bytes, addressed with a 10-bit byte field. */
  lemma At45db161dDescriptor(status: Byte)
    requires Bits5To2(status) == 0x2C && !Bit0(status)
    ensures DescInit(DF_FAMILY_AT45, status) == Ok(Descriptor(DF_FAMILY_AT45, 4096, 528, 10, false))
  {
    assert At45Geometry(0x2C) == Some(Geometry(4096, 528, 10));
  }

  /**
   Reading 1024 bytes at offset 0 from an AT45DB161D in non-power-of-two mode,
   with the descriptor `At45db161dDescriptor` gives: the frame is opcode 0x0B with
   a zero address and a zero dummy byte, and the buffer receives exactly the
   bytes the flash shifts out after those five.
   */
  lemma At45db161dRead(dev: Miso, bus: Bus)
    ensures var r := ReadArray(dev, bus, Descriptor(DF_FAMILY_AT45, 4096, 528, 10, false), 0, 1024, true);
      && r.ret == 0
      && r.bus.trace == bus.trace + Frame(dev, bus.cursor, [CMD_READ_ARRAY_FAST, 0, 0, 0, 0] + Zeros(1024))
      && forall j :: 0 <= j < 1024 ==> r.data[j] == dev(bus.cursor + 5 + j)
  {
    At45db161dFirstFrame();
  }

  /** The frame for offset 0 on that part. */
  lemma At45db161dFirstFrame()
    ensures var d := Descriptor(DF_FAMILY_AT45, 4096, 528, 10, false);
      ReadFrame(d, PhysicalAddress(d, 0)) == [CMD_READ_ARRAY_FAST, 0, 0, 0, 0]
  {
    var d := Descriptor(DF_FAMILY_AT45, 4096, 528, 10, false);
    assert PhysicalAddress(d, 0) == 0;
  }

  /** On an AT45DB041D (density 0x1C) in 264-byte-page mode, offset 530 is byte 2
      of page 2, sent as address (2 << 9) + 2 = 1026, that is bytes 0x00 0x04 0x02. */
  lemma At45db041dAddress()
    ensures DescInit(DF_FAMILY_AT45, 0x1C) == Ok(Descriptor(DF_FAMILY_AT45, 2048, 264, 9, false))
    ensures var d := DescInit(DF_FAMILY_AT45, 0x1C).value;
      && PhysicalAddress(d, 530) == 1026
      && ReadFrame(d, 1026) == [CMD_READ_ARRAY_FAST, 0x00, 0x04, 0x02, 0]
  {
    assert Bits5To2(0x1C) == 0x1C && !Bit0(0x1C);
    assert At45Geometry(0x1C) == Some(Geometry(2048, 264, 9));
    assert Pow2(9) == 512;
  }
}

=== FILE: recovery.dfy ===
/**
 The recovery erase (`CONFIG_DATAFLASH_RECOVERY`): when the recovery button is
 held at boot, the first page or sector of the flash is erased so that the
 boot ROM stops finding a valid image there.

 Each family has its own erase routine: an optional preparation (the AT25
 unprotect sequence, or a write enable), the erase command for address 0, and
 a bounded loop polling the status register until the part reports ready.
 */
module Recovery {
  import opened Types
  import opened Spi
  import opened Probe

  const CMD_WRITE_STATUS: Byte := 0x01
  const CMD_READ_STATUS: Byte := 0x05
  const CMD_WRITE_ENABLE: Byte := 0x06
  const CMD_ERASE_BLOCK4K_AT25: Byte := 0x20
  const CMD_FLAG_STATUS: Byte := 0x70
  const CMD_ERASE_PAGE_AT45: Byte := 0x81
  const CMD_ERASE_64K: Byte := 0xD8

  /** The four erase routines: `dataflash_page0_erase_at25`, `dataflash_page0_erase_at45`,
      `dataflash_sector0_erase_spsn` and `dataflash_sector0_erase_micron`. */
  datatype Routine = At25 | At45 | Spansion | Micron

  /** How a routine reads "ready" off its status byte. */
  datatype Polarity =
    | ReadyWhenBit0Clear   // STATUS_READY_AT25 / STATUS_WIP clear: no write in progress
    | ReadyWhenBit7Set     // STATUS_READY_AT45 / STATUS_READY_MICRON set

  predicate IsReady(p: Polarity, status: Byte)
  {
    match p
    case ReadyWhenBit0Clear => !Bit0(status)
    case ReadyWhenBit7Set => Bit7(status)
  }

  /** The ready test of each routine: bit 0 (AT25 ready/busy, Spansion
      write-in-progress) clear, or bit 7 (AT45 ready, Micron program/erase
      controller ready) set. */
  function PolarityOf(routine: Routine): Polarity
  {
    match routine
    case At25 => ReadyWhenBit0Clear
    case Spansion => ReadyWhenBit0Clear
    case At45 => ReadyWhenBit7Set
    case Micron => ReadyWhenBit7Set
  }

  /** The initial value of `timeout`: the most status reads the loop makes. */
  function Budget(routine: Routine): nat
  {
    match routine
    case At25 => 1000
    case At45 => 1000
    case Spansion => 50000
    case Micron => 50000
  }

  /** The two Atmel routines allow 1000 status reads, the Spansion and Micron
      sector erases 50000. */
  lemma Budgets(routine: Routine)
    ensures Budget(routine) == 1000 <==> routine == At25 || routine == At45
    ensures Budget(routine) == 50000 <==> routine == Spansion || routine == Micron
  {
  }

  /** The status-read opcode of each routine: 0xD7 for AT45, 0x70 (flag status)
      for Micron, and the common 0x05 for AT25 and Spansion. */
  function StatusOpcode(routine: Routine): (op: Byte)
    ensures op == CMD_READ_STATUS_AT45 <==> routine == At45
    ensures op == CMD_FLAG_STATUS <==> routine == Micron
    ensures op == CMD_READ_STATUS <==> routine == At25 || routine == Spansion
  {
    match routine
    case At25 => CMD_READ_STATUS
    case Spansion => CMD_READ_STATUS
    case At45 => CMD_READ_STATUS_AT45
    case Micron => CMD_FLAG_STATUS
  }

  /** The erase command of each routine: the opcode (0x20 4-KByte block erase on
      AT25, 0x81 page erase on AT45, 0xD8 64-KByte sector erase on Spansion and
      Micron) followed by address 0 in three bytes. */
  function EraseCommand(routine: Routine): (r: seq<Byte>)
    ensures |r| == 4
    ensures r[1] == 0 && r[2] == 0 && r[3] == 0
    ensures r[0] == CMD_ERASE_64K <==> routine == Spansion || routine == Micron
    ensures r[0] == CMD_ERASE_PAGE_AT45 <==> routine == At45
    ensures r[0] == CMD_ERASE_BLOCK4K_AT25 <==> routine == At25
  {
    match routine
    case At25 => [CMD_ERASE_BLOCK4K_AT25, 0, 0, 0]
    case At45 => [CMD_ERASE_PAGE_AT45, 0, 0, 0]
    case Spansion => [CMD_ERASE_64K, 0, 0, 0]
    case Micron => [CMD_ERASE_64K, 0, 0, 0]
  }

  /** The AT45 and Micron routines wait for bit 7 to be set, the AT25 and
      Spansion ones for bit 0 to clear. Equivalently, the routines that read the
      common status register (0x05) wait for its busy bit 0 to clear, and those
      that read the AT45 status (0xD7) or the Micron flag status (0x70) wait for
      bit 7 to be set. */
  lemma StatusConventions(routine: Routine)
    ensures PolarityOf(routine) == ReadyWhenBit7Set <==> routine == At45 || routine == Micron
    ensures PolarityOf(routine) == ReadyWhenBit0Clear <==> StatusOpcode(routine) == CMD_READ_STATUS
    ensures PolarityOf(routine) == ReadyWhenBit7Set <==>
      StatusOpcode(routine) == CMD_READ_STATUS_AT45 || StatusOpcode(routine) == CMD_FLAG_STATUS
  {
  }

  /** The routine `dataflash_recovery` picks: AT26F and AT26DF parts use the AT25
      routine, S25FL512S and N25Q their own, and every other family code the AT45
      one. */
  function RoutineFor(family: Byte): (r: Routine)
    ensures r == At25 <==> family == DF_FAMILY_AT26F || family == DF_FAMILY_AT26DF
    ensures r == Spansion <==> family == DF_FAMILY_S25FL512S
    ensures r == Micron <==> family == DF_FAMILY_N25Q
  {
    if family == DF_FAMILY_AT26F || family == DF_FAMILY_AT26DF then At25
    else if family == DF_FAMILY_S25FL512S then Spansion
    else if family == DF_FAMILY_N25Q then Micron
    else At45
  }

  /** The catch-all AT45 branch of the dispatch only ever sees AT45 parts: every
      other family code either has its own routine or fails the probe before the
      recovery runs. */
  lemma RecoveryRoutineMatchesProbe(family: Byte, status: Byte)
    requires DescInit(family, status).Ok?
    ensures RoutineFor(family) == At45 <==> family == DF_FAMILY_AT45
    ensures RoutineFor(family) == At25 <==> IsAtmelFamily(family) && family != DF_FAMILY_AT45
  {
  }

  // ---------------------------------------------------------------------------
  // The status poll

  /**
   The poll loop shared by the four routines, over the results of successive
   status reads (`results(k)` is the k-th read). It stops at the first read that
   fails, whose code it returns, or that reports ready, and gives up with -1
   after `Budget(routine)` busy reads. `n` is the number of reads made.

   The AT45 routine decides the time-out from the last status byte, the other
   three from the exhausted counter; both tests are kept, and the contract is
   the same for all four.
   */
  method PollReady(results: nat -> StatusRead, routine: Routine) returns (ret: int, n: nat)
    ensures 1 <= n <= Budget(routine)
    ensures forall k :: 0 <= k < n - 1 ==>
      results(k).ret == 0 && !IsReady(PolarityOf(routine), results(k).status)
    ensures results(n - 1).ret != 0 ==> ret == results(n - 1).ret
    ensures results(n - 1).ret == 0 && IsReady(PolarityOf(routine), results(n - 1).status) ==> ret == 0
    ensures results(n - 1).ret == 0 && !IsReady(PolarityOf(routine), results(n - 1).status) ==>
      n == Budget(routine) && ret == -1
    ensures ret == 0 <==> exists k :: 0 <= k < Budget(routine) && SettlesAt(results, routine, k)
  {
    var polarity := PolarityOf(routine);
    var timeout: nat := Budget(routine);
    var status: Byte := 0;
    n := 0;
    while true
      invariant 1 <= timeout && n + timeout == Budget(routine)
      invariant forall k :: 0 <= k < n ==> results(k).ret == 0 && !IsReady(polarity, results(k).status)
      decreases timeout
    {
      var r := results(n);
      n := n + 1;
      if r.ret != 0 {
        ret := r.ret;
        SettlesOnlyAfterBusyReads(results, routine, n - 1);
        return;
      }
      status := r.status;
      if IsReady(polarity, status) {
        break;
      }
      timeout := timeout - 1;
      if timeout == 0 {
        break;
      }
    }
    // Here the last read succeeded, and either reported ready with reads to
    // spare, or was the last one allowed and reported busy.
    if routine.At45? {
      ret := if IsReady(polarity, status) then 0 else -1;
    } else {
      ret := if timeout == 0 then -1 else 0;
    }
    if ret == 0 {
      assert SettlesAt(results, routine, n - 1);
    } else {
      SettlesOnlyAfterBusyReads(results, routine, n);
    }
  }

  /** The poll ends successfully at read `k`: every earlier read succeeded and
      reported busy, and read `k` succeeded and reported ready. */
  ghost predicate SettlesAt(results: nat -> StatusRead, routine: Routine, k: nat)
  {
    && (forall j :: 0 <= j < k ==> results(j).ret == 0 && !IsReady(PolarityOf(routine), results(j).status))
    && results(k).ret == 0 && IsReady(PolarityOf(routine), results(k).status)
  }

  /** When the first `m` reads succeed and are busy, and read `m`, if the budget
      allows it, fails, no read within the budget settles the poll. */
  lemma SettlesOnlyAfterBusyReads(results: nat -> StatusRead, routine: Routine, m: nat)
    requires forall k :: 0 <= k < m ==> results(k).ret == 0 && !IsReady(PolarityOf(routine), results(k).status)
    requires m < Budget(routine) ==> results(m).ret != 0
    ensures !exists k :: 0 <= k < Budget(routine) && SettlesAt(results, routine, k)
  {
    forall k | 0 <= k < Budget(routine)
      ensures !SettlesAt(results, routine, k)
    {
      if k < m {
        assert !IsReady(PolarityOf(routine), results(k).status);
      } else if k > m {
        assert results(m).ret != 0;
      }
    }
  }

  // ---------------------------------------------------------------------------
  // The commands on the bus

  /** A write enable (0x06) starting at exchange `c`, then the command `out`. */
  function EnabledFrames(dev: Miso, c: nat, out: seq<Byte>): (r: seq<Event>)
    ensures |r| == |out| + 7
  {
    Frame(dev, c, [CMD_WRITE_ENABLE]) + Frame(dev, c + 1, out)
  }

  /** One protection clear starting at exchange `c`: write enable (0x06), then a
      write of 0 to the status register (0x01 0x00). */
  function UnlockFrames(dev: Miso, c: nat): (r: seq<Event>)
    ensures |r| == 9
  {
    EnabledFrames(dev, c, [CMD_WRITE_STATUS, 0])
  }

  /** A write enable (0x06), then the command `out`: the AT25 status write, and the
      Spansion and Micron erase. */
  function EnabledCommand(dev: Miso, bus: Bus, out: seq<Byte>): (r: Outcome)
    requires 0 < |out| < 256
    ensures r == Outcome(0, Bus(bus.cursor + 1 + |out|, bus.trace + EnabledFrames(dev, bus.cursor, out)))
  {
    var enableFrame := Frame(dev, bus.cursor, [CMD_WRITE_ENABLE]);
    var enable := Command(dev, bus, [CMD_WRITE_ENABLE]);
    assert enable == Outcome(0, Bus(bus.cursor + 1, bus.trace + enableFrame));
    AppendAssoc(bus.trace, enableFrame, Frame(dev, bus.cursor + 1, out));
    if enable.ret != 0 then enable
    else Command(dev, enable.bus, out)
  }

  /** `at25_cmd_write_enbale` then `at25_cmd_write_status_register(0)`. */
  function ClearProtection(dev: Miso, bus: Bus): (r: Outcome)
    ensures r == Outcome(0, Bus(bus.cursor + 3, bus.trace + UnlockFrames(dev, bus.cursor)))
  {
    EnabledCommand(dev, bus, [CMD_WRITE_STATUS, 0])
  }

  /** The protection clears `at25_unprotect` issues after a first status of `first`
      (bit 7, SPRL, set: two; clear: one), starting at exchange `c`. */
  function UnlockSequence(dev: Miso, c: nat, first: Byte): seq<Event>
  {
    if Bit7(first) then UnlockFrames(dev, c) + UnlockFrames(dev, c + 3) else UnlockFrames(dev, c)
  }

  function UnlockCount(first: Byte): nat
  {
    if Bit7(first) then 2 else 1
  }

  /**
   `at25_unprotect`. A status read with no protection bits (SWP, bits 3..2) set
   ends it at once. Otherwise the protection is cleared twice when the
   registers are locked (SPRL, bit 7) and once when not, and a second status
   read decides: any of SPRL and SWP still set is a failure (-1).
   */
  function UnprotectAt25(dev: Miso, bus: Bus): (r: Outcome)
    ensures var c := bus.cursor;
      Bits3To2(dev(c + 1)) == 0 ==>
        r == Outcome(0, Bus(c + 2, bus.trace + Frame(dev, c, [CMD_READ_STATUS, 0])))
    ensures var c := bus.cursor;
      var check := c + 2 + 3 * UnlockCount(dev(c + 1));
      Bits3To2(dev(c + 1)) != 0 ==>
        && r.bus == Bus(check + 2, bus.trace + Frame(dev, c, [CMD_READ_STATUS, 0])
                                   + UnlockSequence(dev, c + 2, dev(c + 1)) + Frame(dev, check, [CMD_READ_STATUS, 0]))
        && (r.ret == 0 || r.ret == -1)
        && (r.ret == 0 <==> Bits3To2(dev(check + 1)) == 0 && !Bit7(dev(check + 1)))
  {
    var (first, afterRead) := ReadStatus(dev, bus, CMD_READ_STATUS);
    assert afterRead == Bus(bus.cursor + 2, bus.trace + Frame(dev, bus.cursor, [CMD_READ_STATUS, 0]));
    assert first == StatusRead(0, dev(bus.cursor + 1));
    if first.ret != 0 then Outcome(first.ret, afterRead)
    else if Bits3To2(first.status) == 0 then Outcome(0, afterRead)
    else
      var locked := if Bit7(first.status) then ClearProtection(dev, afterRead) else Outcome(0, afterRead);
      if locked.ret != 0 then locked
      else
        var global := ClearProtection(dev, locked.bus);
        if global.ret != 0 then global
        else
          UnlockBus(dev, afterRead, first.status, locked.bus, global.bus);
          var (check, afterCheck) := ReadStatus(dev, global.bus, CMD_READ_STATUS);
          assert check == StatusRead(0, dev(global.bus.cursor + 1));
          if check.ret != 0 then Outcome(check.ret, afterCheck)
          else if Bits3To2(check.status) != 0 || Bit7(check.status) then Outcome(-1, afterCheck)
          else Outcome(0, afterCheck)
  }

  /** The bus after the optional and the global protection clear. */
  lemma UnlockBus(dev: Miso, start: Bus, first: Byte, locked: Bus, global: Bus)
    requires locked == if Bit7(first) then Bus(start.cursor + 3, start.trace + UnlockFrames(dev, start.cursor)) else start
    requires global == Bus(locked.cursor + 3, locked.trace + UnlockFrames(dev, locked.cursor))
    ensures global == Bus(start.cursor + 3 * UnlockCount(first),
                          start.trace + UnlockSequence(dev, start.cursor, first))
  {
    var once := UnlockFrames(dev, start.cursor);
    if Bit7(first) {
      var twice := UnlockFrames(dev, start.cursor + 3);
      assert global.trace == start.trace + once + twice;
      AppendAssoc(start.trace, once, twice);
      assert UnlockSequence(dev, start.cursor, first) == once + twice;
    } else {
      assert UnlockSequence(dev, start.cursor, first) == once;
    }
  }

  // ---------------------------------------------------------------------------
  // The erase routines

  /** The commands of a routine after its preparation: the erase command, preceded
      by a write enable on every family but AT45. */
  function EraseFrames(dev: Miso, c: nat, routine: Routine): seq<Event>
  {
    if routine == At45 then Frame(dev, c, EraseCommand(routine))
    else EnabledFrames(dev, c, EraseCommand(routine))
  }

  function EraseLength(routine: Routine): nat
  {
    if routine == At45 then 4 else 5
  }

  /**
   Everything a routine does before its poll loop: the AT25 unprotect (whose
   failure ends the routine with its code), the write enable where the family
   needs one, and the erase command for address 0. The delay that follows the
   command only waits, and leaves no trace.
   */
  function StartErase(dev: Miso, bus: Bus, routine: Routine): (r: Outcome)
    ensures routine != At25 ==>
      r == Outcome(0, Bus(bus.cursor + EraseLength(routine), bus.trace + EraseFrames(dev, bus.cursor, routine)))
    ensures routine == At25 ==>
      var u := UnprotectAt25(dev, bus);
      && (u.ret != 0 ==> r == u)
      && (u.ret == 0 ==> r == Outcome(0, Bus(u.bus.cursor + 5, u.bus.trace + EraseFrames(dev, u.bus.cursor, At25))))
  {
    var prepared := if routine == At25 then UnprotectAt25(dev, bus) else Outcome(0, bus);
    if prepared.ret != 0 then prepared
    else IssueErase(dev, prepared.bus, routine)
  }

  /** The write enable where the family needs one, then the erase command. */
  function IssueErase(dev: Miso, bus: Bus, routine: Routine): (r: Outcome)
    ensures r == Outcome(0, Bus(bus.cursor + EraseLength(routine), bus.trace + EraseFrames(dev, bus.cursor, routine)))
  {
    var erase := EraseCommand(routine);
    if routine == At45 then
      var r := Command(dev, bus, erase);
      assert r.bus == Bus(bus.cursor + 4, bus.trace + Frame(dev, bus.cursor, erase));
      r
    else EnabledCommand(dev, bus, erase)
  }

  /** The results of successive status reads on the bus from `start`: the k-th
      read is the k-th two-byte frame, whose reply arrives during its second
      exchange; no read fails. */
  function BusStatus(dev: Miso, start: Bus): nat -> StatusRead
  {
    (k: nat) => StatusRead(0, dev(start.cursor + 2 * k + 1))
  }

  /** `BusStatus` is what the driver's status reads on the bus return: the k-th
      read, made after k earlier ones, yields its k-th entry. */
  lemma BusStatusIsRead(dev: Miso, start: Bus, opcode: Byte, k: nat)
    ensures ReadStatus(dev, StatusReads(dev, start, opcode, k), opcode).0 == BusStatus(dev, start)(k)
  {
    ReadAfter(dev, start, StatusReads(dev, start, opcode, k), opcode, k);
  }

  /** A status read from any bus state `k` reads past `start` gets the byte of
      exchange `start.cursor + 2k + 1`. */
  lemma ReadAfter(dev: Miso, start: Bus, before: Bus, opcode: Byte, k: nat)
    requires before.cursor == start.cursor + 2 * k
    ensures ReadStatus(dev, before, opcode).0 == BusStatus(dev, start)(k)
  {
  }

  /** The status byte of the k-th poll read after the erase command. */
  ghost predicate ReadyAt(dev: Miso, start: Bus, routine: Routine, k: nat)
  {
    IsReady(PolarityOf(routine), dev(start.cursor + 2 * k + 1))
  }

  /** The erase routine succeeds: its preparation and command go through, and
      one of the first `Budget(routine)` status reads reports ready. */
  ghost predicate EraseSucceeds(dev: Miso, bus: Bus, routine: Routine)
  {
    var start := StartErase(dev, bus, routine);
    start.ret == 0 && exists k :: 0 <= k < Budget(routine) && ReadyAt(dev, start.bus, routine, k)
  }

  /**
   What a poll loop that started on the bus `start` did: `n` status reads, at
   most the budget, whose frames follow on the bus; none but the last reports
   ready; the result is 0 exactly when the last one does, and otherwise -1 after
   all the budget's reads.
   */
  ghost predicate PollOutcome(dev: Miso, start: Bus, routine: Routine, ret: int, after: Bus, n: nat)
  {
    && 1 <= n <= Budget(routine)
    && after == StatusReads(dev, start, StatusOpcode(routine), n)
    && (forall k :: 0 <= k < n - 1 ==> !ReadyAt(dev, start, routine, k))
    && (ret != 0 ==> n == Budget(routine))
    && (ret == 0 <==> ReadyAt(dev, start, routine, n - 1))
    && (ret == 0 || ret == -1)
  }

  /**
   One of the four erase routines on the bus. It fails with the preparation's
   code if the AT25 unprotect fails, and the bus is then as the preparation left
   it. Otherwise it polls, with the outcome `PollOutcome` describes: `polls`
   status reads up to the first ready one follow the erase command on the bus.
   It succeeds exactly when a status read within the budget reports ready.
   */
  method ErasePage0(dev: Miso, bus: Bus, routine: Routine) returns (ret: int, after: Bus, polls: nat)
    ensures var start := StartErase(dev, bus, routine);
      start.ret != 0 ==> ret == start.ret && after == start.bus
    ensures var start := StartErase(dev, bus, routine);
      start.ret == 0 ==> PollOutcome(dev, start.bus, routine, ret, after, polls)
    ensures ret == 0 <==> EraseSucceeds(dev, bus, routine)
  {
    var start := StartErase(dev, bus, routine);
    if start.ret != 0 {
      return start.ret, start.bus, 0;
    }
    ret, after, polls := PollStatus(dev, start.bus, routine);
    assert PollOutcome(dev, start.bus, routine, ret, after, polls);
  }

  /**
   The poll loop of a routine on the bus, from the bus `start` left by the erase
   command. It succeeds exactly when a status read within the budget reports
   ready. It makes `n` reads, up to the first ready one or, on a time-out, all
   the budget allows, and the bus then holds their `n` status frames.
   */
  method PollStatus(dev: Miso, start: Bus, routine: Routine) returns (ret: int, after: Bus, n: nat)
    ensures ret == 0 || ret == -1
    ensures ret == 0 <==> exists k :: 0 <= k < Budget(routine) && ReadyAt(dev, start, routine, k)
    ensures 1 <= n <= Budget(routine)
    ensures ret != 0 ==> n == Budget(routine)
    ensures after == StatusReads(dev, start, StatusOpcode(routine), n)
    ensures forall k :: 0 <= k < n - 1 ==> !ReadyAt(dev, start, routine, k)
    ensures ret == 0 <==> ReadyAt(dev, start, routine, n - 1)
  {
    var results := BusStatus(dev, start);
    ret, n := PollReady(results, routine);
    after := StatusReads(dev, start, StatusOpcode(routine), n);
    forall k | 0 <= k < n - 1
      ensures !ReadyAt(dev, start, routine, k)
    {
      BusReadIsReadyAt(dev, start, routine, k);
    }
    BusReadIsReadyAt(dev, start, routine, n - 1);
    if ret == 0 {
      assert ReadyAt(dev, start, routine, n - 1);
    } else {
      assert !ReadyAt(dev, start, routine, n - 1);
      NoReadyWithinBudget(dev, start, routine, n);
    }
  }

  /** The k-th bus read never fails, and reports ready exactly when `ReadyAt` says so. */
  lemma BusReadIsReadyAt(dev: Miso, start: Bus, routine: Routine, k: nat)
    ensures BusStatus(dev, start)(k).ret == 0
    ensures IsReady(PolarityOf(routine), BusStatus(dev, start)(k).status) <==> ReadyAt(dev, start, routine, k)
  {
  }

  /** When the poll gives up after `n` reads, none of the reads within the budget
      reported ready. */
  lemma NoReadyWithinBudget(dev: Miso, start: Bus, routine: Routine, n: nat)
    requires n == Budget(routine)
    requires forall k :: 0 <= k < n ==> !ReadyAt(dev, start, routine, k)
    ensures !exists k :: 0 <= k < Budget(routine) && ReadyAt(dev, start, routine, k)
  {
  }

  /**
   `dataflash_recovery`. `buttonLevel` is the value read from the recovery
   button's pin; the button is pressed when it reads 0. Without a press the
   flash is left alone and the result is -1; with one, the family's routine
   runs, its bus is the result's, and its result is returned. `polls` is the
   number of status reads that routine made: up to the first ready one, or the
   whole budget on a time-out.
   */
  method Recover(dev: Miso, bus: Bus, family: Byte, buttonLevel: int) returns (ret: int, after: Bus, polls: nat)
    ensures buttonLevel != 0 ==> ret == -1 && after == bus && polls == 0
    ensures buttonLevel == 0 ==> (ret == 0 <==> EraseSucceeds(dev, bus, RoutineFor(family)))
    ensures var routine := RoutineFor(family);
      var start := StartErase(dev, bus, routine);
      buttonLevel == 0 && start.ret == 0 ==> PollOutcome(dev, start.bus, routine, ret, after, polls)
    ensures var start := StartErase(dev, bus, RoutineFor(family));
      buttonLevel == 0 && start.ret != 0 ==> after == start.bus
    ensures ret == 0 || ret == -1
  {
    if buttonLevel == 0 {
      ret, after, polls := ErasePage0(dev, bus, RoutineFor(family));
      if ret != 0 {
        return ret, after, polls;
      }
      return 0, after, polls;
    }
    return -1, bus, 0;
  }
}

=== FILE: spi.dfy ===
/**
 The command transport of the serial-flash driver (`df_send_command`) and the
 one-byte status readers built on it.

 The SPI controller is abstracted as an event trace. Every byte the driver
 writes is a full-duplex exchange: while the master shifts a byte out on MOSI,
 the flash shifts one back on MISO. What the flash sends back is not under the
 driver's control, so it is an input of the model: a `Miso` script giving the
 byte received during the k-th exchange of the session.
 */
module Spi {
  import opened Types

  /** The byte the flash drives on MISO during the k-th byte exchange. */
  type Miso = nat -> Byte

  datatype Event =
    | CsActivate                             // at91_spi_cs_activate
    | ClearStatus                            // at91_spi_read_sr, read to clear pending events
    | Transfer(mosi: Byte, miso: Byte)       // at91_spi_write_data then at91_spi_read_spi
    | CsDeactivate                           // at91_spi_cs_deactivate

  /** Bus state: how many bytes have been exchanged so far, and the events seen. */
  datatype Bus = Bus(cursor: nat, trace: seq<Event>)

  /** What `df_send_command` produces: its return code, the bytes it stored in
      its `data` buffer, and the bus afterwards. */
  datatype Sent = Sent(ret: int, data: seq<Byte>, bus: Bus)

  /** The exchanges of shifting `out` starting at exchange number `c`. */
  function Transfers(dev: Miso, c: nat, out: seq<Byte>): (r: seq<Event>)
    ensures |r| == |out|
    ensures forall i :: 0 <= i < |out| ==> r[i] == Transfer(out[i], dev(c + i))
    decreases |out|
  {
    if out == [] then [] else [Transfer(out[0], dev(c))] + Transfers(dev, c + 1, out[1..])
  }

  /** The bytes received during `n` exchanges starting at exchange number `c`. */
  function Received(dev: Miso, c: nat, n: nat): (r: seq<Byte>)
    ensures |r| == n
    ensures forall i :: 0 <= i < n ==> r[i] == dev(c + i)
    decreases n
  {
    if n == 0 then [] else [dev(c)] + Received(dev, c + 1, n - 1)
  }

  lemma {:induction false} TransfersAppend(dev: Miso, c: nat, a: seq<Byte>, b: seq<Byte>)
    ensures Transfers(dev, c, a) + Transfers(dev, c + |a|, b) == Transfers(dev, c, a + b)
  {
    var lhs := Transfers(dev, c, a) + Transfers(dev, c + |a|, b);
    var rhs := Transfers(dev, c, a + b);
    assert |lhs| == |rhs|;
    forall i | 0 <= i < |lhs|
      ensures lhs[i] == rhs[i]
    {
      if i < |a| {
        assert lhs[i] == Transfer(a[i], dev(c + i));
      } else {
        assert lhs[i] == Transfer(b[i - |a|], dev(c + |a| + (i - |a|)));
      }
    }
  }

  /** One chip-select-framed command whose MOSI bytes are `out`. */
  function Frame(dev: Miso, c: nat, out: seq<Byte>): (f: seq<Event>)
    ensures |f| == |out| + 3
  {
    [CsActivate, ClearStatus] + Transfers(dev, c, out) + [CsDeactivate]
  }

  /** A frame selects the flash, clears the status, exchanges each byte of `out`
      in order against what the flash drives, and releases the flash. */
  lemma FrameEvents(dev: Miso, c: nat, out: seq<Byte>)
    ensures var f := Frame(dev, c, out);
      && f[0] == CsActivate && f[1] == ClearStatus && f[|f| - 1] == CsDeactivate
      && forall i :: 0 <= i < |out| ==> f[i + 2] == Transfer(out[i], dev(c + i))
  {
  }

  /** Chip select is asserted exactly once, as the first event of a frame, and
      released exactly once, as its last. */
  lemma FrameSelectsOnce(dev: Miso, c: nat, out: seq<Byte>)
    ensures var f := Frame(dev, c, out);
      forall i :: 0 <= i < |f| ==>
        (f[i] == CsActivate <==> i == 0) && (f[i] == CsDeactivate <==> i == |f| - 1)
  {
    var f := Frame(dev, c, out);
    forall i | 0 <= i < |f|
      ensures (f[i] == CsActivate <==> i == 0) && (f[i] == CsDeactivate <==> i == |f| - 1)
    {
      if 2 <= i < |f| - 1 {
        assert f[(i - 2) + 2] == Transfer(out[i - 2], dev(c + (i - 2)));
      }
    }
  }

  /**
   `df_send_command(cmd, cmd_len, data, data_len)`. `cmd` is None when the
   command argument is NULL; `hasData` says whether `data` is non-NULL. A
   non-NULL command buffer holds at least `cmdLen` bytes.
   */
  function SendCommand(dev: Miso, bus: Bus, cmd: Option<seq<Byte>>, cmdLen: nat,
                       hasData: bool, dataLen: nat): (r: Sent)
    requires cmdLen < 256 && dataLen < U32_LIMIT
    requires cmd.Some? ==> cmdLen <= |cmd.value|
    ensures r.ret == 0 || r.ret == -1
    ensures r.ret == 0 <==> cmd.Some? && cmdLen > 0 && (dataLen > 0 ==> hasData)
    ensures r.ret != 0 ==> r.bus == bus && r.data == []
    ensures r.ret == 0 ==>
      && r.bus.cursor == bus.cursor + cmdLen + dataLen
      && r.bus.trace == bus.trace + Frame(dev, bus.cursor, cmd.value[..cmdLen] + Zeros(dataLen))
      && r.data == Received(dev, bus.cursor + cmdLen, dataLen)
  {
    if cmd.None? then Sent(-1, [], bus)
    else if cmdLen == 0 then Sent(-1, [], bus)
    else if dataLen != 0 && !hasData then Sent(-1, [], bus)
    else Exchange(dev, bus, cmd.value[..cmdLen], dataLen)
  }

  /** The body of a well-formed `df_send_command`: select, clear status, shift the
      command bytes out (ignoring replies), shift `dataLen` zeros out keeping the
      replies, release. */
  function Exchange(dev: Miso, bus: Bus, command: seq<Byte>, dataLen: nat): (r: Sent)
    ensures r.ret == 0
    ensures r.bus.cursor == bus.cursor + |command| + dataLen
    ensures r.bus.trace == bus.trace + Frame(dev, bus.cursor, command + Zeros(dataLen))
    ensures r.data == Received(dev, bus.cursor + |command|, dataLen)
  {
    var c := bus.cursor;
    var commandPhase := Transfers(dev, c, command);
    var dataPhase := Transfers(dev, c + |command|, Zeros(dataLen));
    TransfersAppend(dev, c, command, Zeros(dataLen));
    var framed := [CsActivate, ClearStatus] + (commandPhase + dataPhase) + [CsDeactivate];
    Sent(0, Received(dev, c + |command|, dataLen), Bus(c + |command| + dataLen, bus.trace + framed))
  }

  /** The events of one `df_send_command` frame, event by event: after the select
      and the status clear come the command bytes in order, each exchanged against
      whatever the flash drives, then `dataLen` zero bytes whose replies are the
      received data; the release closes the frame (see `Frame`). */
  lemma CommandFrameShape(dev: Miso, c: nat, command: seq<Byte>, dataLen: nat)
    ensures var f := Frame(dev, c, command + Zeros(dataLen));
      var replies := Received(dev, c + |command|, dataLen);
      && (forall i :: 0 <= i < |command| ==> f[2 + i] == Transfer(command[i], dev(c + i)))
      && (forall j :: 0 <= j < dataLen ==> f[2 + |command| + j] == Transfer(0, replies[j]))
  {
    var out := command + Zeros(dataLen);
    var f := Frame(dev, c, out);
    var replies := Received(dev, c + |command|, dataLen);
    forall i | 0 <= i < |command|
      ensures f[2 + i] == Transfer(command[i], dev(c + i))
    {
      assert out[i] == command[i];
      assert f[i + 2] == Transfer(out[i], dev(c + i));
    }
    forall j | 0 <= j < dataLen
      ensures f[2 + |command| + j] == Transfer(0, replies[j])
    {
      assert out[|command| + j] == 0;
      assert f[(|command| + j) + 2] == Transfer(out[|command| + j], dev(c + (|command| + j)));
    }
  }

  /** A command with no data phase (`df_send_command(cmd, len, NULL, 0)`). */
  datatype Outcome = Outcome(ret: int, bus: Bus)

  function Command(dev: Miso, bus: Bus, out: seq<Byte>): (r: Outcome)
    requires |out| < 256
    ensures r.ret == 0 <==> |out| > 0
    ensures r.ret == 0 ==> r.bus == Bus(bus.cursor + |out|, bus.trace + Frame(dev, bus.cursor, out))
    ensures r.ret != 0 ==> r.bus == bus
  {
    var s := SendCommand(dev, bus, Some(out), |out|, false, 0);
    assert out[..|out|] + Zeros(0) == out;
    Outcome(s.ret, s.bus)
  }

  /** What a `df_read_status_*` routine yields: its `unsigned char` return code
      and the status byte it stored (left 0 when it stored nothing). */
  datatype StatusRead = StatusRead(ret: Byte, status: Byte)

  /** The status reported by a read that stored nothing. */
  const NOTHING_STORED: Byte := 0

  /** `df_read_status_at45/_spsn/_micron/_at25`: the one-byte command `opcode`
      followed by one data byte. */
  function ReadStatus(dev: Miso, bus: Bus, opcode: Byte): (r: (StatusRead, Bus))
    ensures r.0 == StatusRead(0, dev(bus.cursor + 1))
    ensures r.1 == Bus(bus.cursor + 2, bus.trace + Frame(dev, bus.cursor, [opcode, 0]))
  {
    var s := SendCommand(dev, bus, Some([opcode]), 1, true, 1);
    assert [opcode][..1] + Zeros(1) == [opcode, 0];
    if s.ret != 0 then (StatusRead(UChar(s.ret), NOTHING_STORED), s.bus)
    else (StatusRead(0, s.data[0]), s.bus)
  }

  /** The events of `n` back-to-back status-read frames starting at exchange `c`. */
  function PollFrames(dev: Miso, c: nat, opcode: Byte, n: nat): (r: seq<Event>)
    ensures |r| == 5 * n
    decreases n
  {
    if n == 0 then [] else Frame(dev, c, [opcode, 0]) + PollFrames(dev, c + 2, opcode, n - 1)
  }

  lemma AppendAssoc(a: seq<Event>, b: seq<Event>, c: seq<Event>)
    ensures (a + b) + c == a + (b + c)
  {
  }

  /** The bus after `n` consecutive status reads with `opcode`: each read is one
      two-byte frame, and the k-th one receives its status during exchange
      `cursor + 2k + 1`. */
  function StatusReads(dev: Miso, bus: Bus, opcode: Byte, n: nat): (r: Bus)
    ensures r == Bus(bus.cursor + 2 * n, bus.trace + PollFrames(dev, bus.cursor, opcode, n))
    decreases n
  {
    if n == 0 then bus
    else
      var next := ReadStatus(dev, bus, opcode).1;
      AppendAssoc(bus.trace, Frame(dev, bus.cursor, [opcode, 0]), PollFrames(dev, bus.cursor + 2, opcode, n - 1));
      StatusReads(dev, next, opcode, n - 1)
  }
}

=== FILE: types.dfy ===
/**
 Basic machine types shared by the serial-flash driver model: bytes and 32-bit
 unsigned integers as bounded ints (the driver's `unsigned char` and
 `unsigned int`), the bit tests the driver applies to status and ID bytes,
 powers of two, and the failure-carrying Option/Result wrappers.
 */
module Types {

  /** An `unsigned char`. */
  type Byte = x: int | 0 <= x < 0x100

  const U32_LIMIT: nat := 0x1_0000_0000

  /** An `unsigned int` of the target (32 bits). */
  type U32 = x: int | 0 <= x < U32_LIMIT

  /** The C conversion `(unsigned char)x`: the value modulo 256, so -1 becomes 255. */
  function UChar(x: int): Byte
  {
    x % 0x100
  }

  // The masks the driver applies to bytes. A mask of contiguous bits lo..hi keeps
  // `b mod 2^(hi+1) - b mod 2^lo`; each is written out with its literal weights.

  /** `b & 0x01` is non-zero. */
  predicate Bit0(b: Byte)
  {
    b % 2 == 1
  }

  /** `b & 0x80` is non-zero. */
  predicate Bit7(b: Byte)
  {
    b >= 0x80
  }

  /** `b & 0x0C`. */
  function Bits3To2(b: Byte): Byte
  {
    b % 0x10 - b % 0x4
  }

  /** `b & 0x3C`. */
  function Bits5To2(b: Byte): Byte
  {
    b % 0x40 - b % 0x4
  }

  /** `b & 0xE0`. */
  function Bits7To5(b: Byte): Byte
  {
    b - b % 0x20
  }

  function Pow2(k: nat): (p: nat)
    ensures p >= 1
  {
    if k == 0 then 1 else 2 * Pow2(k - 1)
  }

  /** `n` zero bytes: what the driver shifts out while clocking data in. */
  function Zeros(n: nat): (z: seq<Byte>)
    ensures |z| == n
    ensures forall i :: 0 <= i < n ==> z[i] == 0
  {
    seq(n, _ => 0)
  }

  datatype Option<+T> = None | Some(value: T)

  datatype Result<+T, +E> = Ok(value: T) | Err(error: E)
}
